=== FILE: README.md ===
# Water reminder: the reminder state machine

This project models the core of a browser hydration-reminder widget, the
`AppComponent` of `src/app/app.component.ts`. The component keeps one
state, `Stopped`, `Started` or `StartedOvertime`. The user actions
`start()`, `drink()` and `stop()` force a state and append an entry to the
history. A one-second clock is restarted on every entry into `Started` or
`StartedOvertime`, including re-entry into `Started` by `start()` or
`drink()`, and drives the countdown of that state:

- while `Started`: frequency-seconds minus elapsed, cut off below zero;
- while `StartedOvertime`: `59 - elapsed mod 60`.

A zero of either countdown sends a "time to drink" notification. The zero
of the started countdown also switches to overtime. Notifications are
permission-gated, and each new one closes the previous one. The started
countdown is displayed as `MM:SS`.

The source expresses all of this as reactive streams. Here it is an
explicit discrete-time machine:

- `Reminder.Step` applies one event to an immutable `Machine` record.
- `Reminder.Run` folds `Step` over a sequence of events.
- `Reminder.Emissions` lists the countdown values a run emits.
- `Tick` is one emission of the clock subscribed for the current state.
  The machine's `elapsed` field counts the clock values already emitted
  since the last entry into that state.
- Cancelling a countdown on leaving its state (`switchMap`/`takeUntil`
  in the source) becomes two facts: every action resets `elapsed` to 0,
  and a tick consults only the countdown of the current state.

Modules:

- `Optional` (optional.dfy): the `Option` datatype.
- `ClockFormat` (clock_format.dfy): the `MM:SS` formatter and a parser
  that inverts it.
- `Notifications` (notifications.dfy): the notification sink. The browser
  notifications are a log of show/close operations plus the one reference
  the component holds.
- `Reminder` (reminder.dfy): states, events, the machine, `Step`, `Run`.
- `ReminderProperties` (reminder_properties.dfy): properties of runs.

Inputs from outside the component are parameters:

- the notification permission, read at the moment of sending, is the
  `granted` flag of each `Tick` and of `PermissionAnswered`;
- wall-clock instants are opaque `Stamp` values in history entries and
  reminder messages.

The frequency is meant to be a whole number of minutes set once. The code
reads `reminderFrequencyInMinutes` again at every tick (line 35). The model
fixes the frequency when the machine is created; see "Left out".

## Model

| member | source | states |
|---|---|---|
| Reminder.Init | src/app/app.component.ts:22-28 | a new component is `Stopped` with the given frequency, an empty history and no notification, and it satisfies the machine invariant |
| Reminder.Fresh | src/app/app.component.ts:22-23 | the default component starts `Stopped` with frequency 60 minutes, and its invariant holds |
| Reminder.TickValue | src/app/app.component.ts:31-53 | a started value is emitted exactly while `Started` and elapsed has not passed frequency-seconds, and then it equals frequency-seconds minus elapsed; an overtime value is emitted exactly while `StartedOvertime`, is below 60, and is 0 exactly when elapsed mod 60 is 59; a consistent machine emits nothing only when `Stopped` |
| Reminder.OnTick | src/app/app.component.ts:55-62 | a tick never touches the history; in `Stopped` it changes nothing; a non-zero started value only advances the clock; the started zero moves to overtime with a fresh clock; overtime stays overtime; a zero sends exactly one reminder and every other tick leaves the sink untouched; the invariant is preserved |
| Reminder.Step | src/app/app.component.ts:69-98 | every action, from any state, yields its target state (`Started` for start and drink, `Stopped` for stop), restarts the clock, sends nothing, and appends exactly one matching entry; other events leave the history alone; a tick is handled by `OnTick`; an answered permission request keeps the state and the clock and sends the greeting exactly when permission was granted; the invariant is preserved |
| Reminder.Emitted | src/app/app.component.ts:31-53 | an event emits at most one countdown value, only on a tick, and it is the value of the countdown subscribed in the current state; from a consistent machine a tick emits exactly when the state is not `Stopped` |
| Reminder.Emissions | src/app/app.component.ts:31-53 | a run emits at most one countdown value per event |
| Reminder.Run | src/app/app.component.ts:30-63 | every run from a consistent machine ends in a consistent machine and keeps the frequency |
| ReminderProperties.HistoryOfRun | src/app/app.component.ts:69-91 | after a run, the history is the earlier history followed by one entry per action, in call order; earlier entries are unchanged |
| ReminderProperties.HistoryAfterActions | src/app/app.component.ts:70-89 | after N actions on a fresh component, the history has exactly N entries and the i-th records the i-th action and its time |
| ReminderProperties.ActionForcesState | src/app/app.component.ts:69-91 | after any run, appending an action yields that action's target state and adds exactly its entry to the history |
| ReminderProperties.StartedCountdown | src/app/app.component.ts:31-39 | while the started countdown has not reached zero, n ticks emit frequency-seconds minus elapsed, counting down by one, send nothing and only advance the clock |
| ReminderProperties.StartedCountdownEnds | src/app/app.component.ts:55-58 | the started countdown emits every value down to 0; at the zero it sends exactly one reminder and enters overtime with a fresh clock |
| ReminderProperties.EnterStarted | src/app/app.component.ts:85-91 | start or drink from any state, including `Started` and `StartedOvertime`, restarts the countdown; the next F+1 ticks emit F, F-1, …, 0 (F is frequency-seconds) and send exactly one reminder, and the first overtime value after that is 59 |
| ReminderProperties.OvertimeTicks | src/app/app.component.ts:47-53 | in overtime, the i-th emission is 59 minus (elapsed + i) mod 60; the state and the history never change on a tick |
| ReminderProperties.OvertimeZeros | src/app/app.component.ts:50 | the overtime values cross zero once per completed minute of elapsed time |
| ReminderProperties.OvertimeCycle | src/app/app.component.ts:60-62 | in overtime with permission, n ticks create one notification per completed minute of elapsed time; without permission they create none |
| ReminderProperties.OvertimeTwoCycles | src/app/app.component.ts:47-62 | from the start of overtime, 120 ticks give zeros exactly at elapsed 59 and 119, so two zero-crossings and, with permission, two notifications |
| ReminderProperties.StoppedTicks | src/app/app.component.ts:33-51 | while `Stopped`, ticks change nothing and emit nothing |
| ReminderProperties.StoppedStaysSilent | src/app/app.component.ts:77-83 | once stopped, events that neither start nor drink nor grant permission emit no countdown value, send nothing and keep the machine `Stopped` |
| ReminderProperties.StoppedUntilRestart | src/app/app.component.ts:77-98 | once stopped, any events other than start and drink keep the machine `Stopped` and emit no countdown value; the sink ends exactly as if only the greetings of the answered permission requests had been sent, in order |
| ReminderProperties.StopCancels | src/app/app.component.ts:77-83 | stop cancels the running countdown from any state: no countdown value until start or drink; the only notification possible is the greeting of a granted permission answer, and without one the sink is untouched |
| ReminderProperties.NotificationsMatchZeros | src/app/app.component.ts:55-62 | with permission granted throughout, the notifications created during a run are exactly the zero-crossings it emits |
| ReminderProperties.DeniedSendsNothing | src/app/app.component.ts:100-101 | when permission is never granted, a run creates and closes no notification |
| ReminderProperties.EmissionsInRange | src/app/app.component.ts:35-50 | every value a consistent machine emits is in range: started values within 0..frequency-seconds, overtime values within 0..59 |
| ReminderProperties.Reachable | src/app/app.component.ts:23-36 | for every frequency, every state reachable from a fresh component is consistent and has at most one notification open; while `Started`, the non-negativity cut-off never ends the countdown early |
| ReminderProperties.StartedDisplay | src/app/app.component.ts:41-45 | for frequencies under 100 minutes, each started value displays as five characters that read back as that value |
| ClockFormat.Decimal | src/app/app.component.ts:42-43 | the decimal rendering is a non-empty digit string with no leading zero, one digit below 10 and two digits below 100 |
| ClockFormat.DecimalRoundTrip | src/app/app.component.ts:42-43 | reading back the decimal rendering of n gives n |
| ClockFormat.PadStart | src/app/app.component.ts:42-43 | the result is as long as s or width, whichever is larger; a string already that long is returned unchanged |
| ClockFormat.PadStartShape | src/app/app.component.ts:42-43 | padding prepends one pad character for each character s is short of width, and keeps s as the tail |
| ClockFormat.Pad2 | src/app/app.component.ts:42-43 | `${n}.padStart(2, '0')` is at least two characters, exactly two below 100, and the plain decimal notation from 10 on |
| ClockFormat.PadKeepsValue | src/app/app.component.ts:42-43 | left-padding with '0' keeps a digit string's value |
| ClockFormat.Pad2Value | src/app/app.component.ts:42-43 | a padded number is a digit string of at least two characters denoting it, and exactly two below 100 |
| ClockFormat.Format | src/app/app.component.ts:41-45 | the display always ends in a colon and two characters; for fewer than 6000 seconds it has length 5 with the colon at index 2 |
| ClockFormat.MinutesPart | src/app/app.component.ts:42 | the digits before the colon denote the whole minutes |
| ClockFormat.SecondsPart | src/app/app.component.ts:43 | the two digits after the colon denote the seconds, 00 to 59 |
| ClockFormat.ParseFormat | src/app/app.component.ts:41-45 | parsing the display of any number of seconds gives that number back |
| ClockFormat.ParseFiveChars | src/app/app.component.ts:41-45 | a five-character string parses to x exactly when x is below 6000 and the string is the display of x |
| ClockFormat.FormatExamples | src/app/app.component.ts:41-45 | 125 seconds display as "02:05" and 0 seconds as "00:00" |
| Notifications.EmptyValid | src/app/app.component.ts:28 | the initial sink holds no reference and has nothing open |
| Notifications.Send | src/app/app.component.ts:100-106 | without permission nothing changes; with it, the previous notification is closed before the new one is shown, the log gains at most those two operations and ends with the show, a notification with a fresh id and the fixed title becomes current, exactly one is created and it is the only one open, and the invariant is preserved |
| Notifications.SendClosesBeforeShowing | src/app/app.component.ts:102-103 | at every point of the log written by one send, at most one notification is open: the previous one is closed before the new one is shown |
| Notifications.AtMostOneOpen | src/app/app.component.ts:102-105 | a consistent sink has at most one notification open |
| Notifications.SendAllKeepsOneOpen | src/app/app.component.ts:100-106 | after any series of send attempts, one notification is created per permitted attempt, at most one is open, and the log only grows |

## Left out

- The reactive-stream machinery (`BehaviorSubject`, `switchMap`, `takeUntil`, `takeWhile`) and event-loop scheduling. They are replaced by the explicit step function described above.
- `TimerService` is not part of this model. The clock is "elapsed counts 0, 1, 2, … from the last reset", one value per `Tick`. Whether a fresh clock emits its 0 at once or one second later is up to that service. It decides the wall-clock spacing of the first overtime reminder, not the tick counts proved here.
- `startedCountdown$` and `overtimeCountdown$` are cold streams. Each can have two subscribers, the template display and its zero handler, and each subscriber gets its own clock. The model assumes that the subscribers of either countdown all see the same clock values.
- Reminder.Init: the frequency is a natural number fixed when the machine is created. The source re-reads it at every tick, and the form can change it mid-countdown or set a fractional or negative value. A fractional value brings in floating point. A smaller value can make the started countdown stop before it reaches zero.
- Number width: JavaScript numbers are doubles, exact as integers only below 2^53, and `${n}` switches to exponent notation from 1e21. The model uses unbounded natural numbers and plain decimal notation, so it describes the component only for elapsed times and frequencies far below those bounds.
- Fractional frequency: when frequency×60 is not a whole number, the started countdown never equals exactly 0. The `takeWhile` then ends it at the first negative value, no reminder fires, and the state stays `Started` until the next action. The model's frequency is a natural number, so this case is outside it.
- Wall-clock time: history timestamps and the `HH:mm aa` prefix of the reminder text are opaque `Stamp` values. Reminder bodies are `Reminder(at)` or `Ready`, not strings.
- `window.Notification`, `hasNotificationPermission` (lines 65-67) and the permission prompt of `requestNotificationPermission` (lines 93-98) are browser interfaces. The permission is a `granted` input. The code after the awaited prompt is modelled as the `PermissionAnswered` event, which sends the greeting when permission was granted.
- A notification closed by the user or the browser is not modelled. Only the component's own close-then-show sequence is.
- Angular decorators, forms, the template and styling.

=== FILE: clock_format.dfy ===
/**
  The `MM:SS` rendering of the started countdown: the whole minutes and the
  remaining seconds, each written in decimal and left-padded with '0' to
  width 2. Padding never truncates, so 100 minutes or more give a longer
  minutes part. `ParseClock` is the inverse used to state the round trip.
 */
module ClockFormat {
  import opened Optional

  predicate IsDigit(c: char) {
    '0' <= c <= '9'
  }

  predicate AllDigits(s: string) {
    forall i :: 0 <= i < |s| ==> IsDigit(s[i])
  }

  function DigitChar(d: nat): (c: char)
    requires d < 10
    ensures IsDigit(c)
  {
    (('0' as int) + d) as char
  }

  /** The value of a digit character; other characters count as 0. */
  function DigitValue(c: char): (d: nat)
    ensures d < 10
    ensures IsDigit(c) ==> DigitChar(d) == c
  {
    if IsDigit(c) then (c as int) - ('0' as int) else 0
  }

  /** Decimal notation of `n` without leading zeros, as `${n}` writes a whole number below 2^53. */
  function Decimal(n: nat): (s: string)
    ensures 1 <= |s|
    ensures AllDigits(s)
    ensures n < 10 ==> |s| == 1
    ensures 10 <= n < 100 ==> |s| == 2
    ensures n >= 10 ==> s[0] != '0'
  {
    if n < 10 then [DigitChar(n)] else Decimal(n / 10) + [DigitChar(n % 10)]
  }

  /** The number a digit string denotes; leading zeros are allowed. */
  function Value(s: string): nat
  {
    if |s| == 0 then 0 else Value(s[..|s| - 1]) * 10 + DigitValue(s[|s| - 1])
  }

  /** `s.padStart(width, c)`: prepend `c` until the string is `width` long. */
  function PadStart(s: string, width: nat, c: char): (r: string)
    ensures |r| == if |s| >= width then |s| else width
    ensures |s| >= width ==> r == s
    decreases width - |s|
  {
    if |s| >= width then s else PadStart([c] + s, width, c)
  }

  /** `k` copies of `c`. */
  function Repeat(c: char, k: nat): (r: string)
    ensures |r| == k
  {
    if k == 0 then [] else [c] + Repeat(c, k - 1)
  }

  /**
    Padding prepends exactly the missing number of pad characters and
    leaves the original string as the tail.
   */
  lemma {:induction false} PadStartShape(s: string, width: nat, c: char)
    ensures PadStart(s, width, c)
         == (if |s| >= width then s else Repeat(c, width - |s|) + s)
    decreases width - |s|
  {
    if |s| < width {
      PadStartShape([c] + s, width, c);
      if |s| + 1 < width {
        assert Repeat(c, width - |s|) == Repeat(c, width - |s| - 1) + [c] by {
          RepeatSnoc(c, width - |s| - 1);
        }
      }
    }
  }

  lemma {:induction false} RepeatSnoc(c: char, k: nat)
    ensures Repeat(c, k + 1) == Repeat(c, k) + [c]
    decreases k
  {
    if k > 0 {
      RepeatSnoc(c, k - 1);
    }
  }

  /** `${n}.padStart(2, '0')`: the decimal notation of `n`, at least two characters wide. */
  function Pad2(n: nat): (r: string)
    ensures |r| >= 2
    ensures n < 100 ==> |r| == 2
    ensures n >= 10 ==> r == Decimal(n)
  {
    PadStart(Decimal(n), 2, '0')
  }

  /** The countdown display: minutes, a colon, seconds. */
  function Format(x: nat): (r: string)
    ensures |r| >= 5 && r[|r| - 3] == ':'
    ensures x < 6000 ==> |r| == 5 && r[2] == ':'
  {
    Pad2(x / 60) + ":" + Pad2(x % 60)
  }

  /**
    Reads back a display: a non-empty run of digits, a colon, then exactly
    two digits denoting less than 60.
   */
  function ParseClock(s: string): (r: Option<nat>)
    ensures r.Some? ==> |s| >= 4 && s[|s| - 3] == ':'
    ensures r.Some? ==> IsDigit(s[|s| - 1]) && '0' <= s[|s| - 2] <= '5'
  {
    if |s| < 4 || s[|s| - 3] != ':' then None
    else
      var mm := s[..|s| - 3];
      var ss := s[|s| - 2..];
      if !AllDigits(mm) || !AllDigits(ss) || Value(ss) >= 60 then None
      else
        ValueOfTwo(ss);
        Some(Value(mm) * 60 + Value(ss))
  }

  lemma ValueOfTwo(s: string)
    requires |s| == 2 && AllDigits(s)
    ensures Value(s) == 10 * DigitValue(s[0]) + DigitValue(s[1])
  {
    assert s[..1][..0] == [];
    assert Value(s[..1]) == DigitValue(s[0]);
  }

  /** Reading back the decimal notation of `n` gives `n`. */
  lemma {:induction false} DecimalRoundTrip(n: nat)
    ensures Value(Decimal(n)) == n
  {
    if n >= 10 {
      var s := Decimal(n);
      assert s[..|s| - 1] == Decimal(n / 10);
      DecimalRoundTrip(n / 10);
    }
  }

  /** A leading '0' does not change the number a digit string denotes. */
  lemma {:induction false} LeadingZero(s: string)
    requires AllDigits(s)
    ensures AllDigits(['0'] + s)
    ensures Value(['0'] + s) == Value(s)
    decreases |s|
  {
    var z := ['0'] + s;
    if |s| > 0 {
      assert z[..|z| - 1] == ['0'] + s[..|s| - 1];
      LeadingZero(s[..|s| - 1]);
    }
  }

  /** Zero-padding keeps the digits and their value. */
  lemma {:induction false} PadKeepsValue(s: string, width: nat)
    requires AllDigits(s)
    ensures AllDigits(PadStart(s, width, '0'))
    ensures Value(PadStart(s, width, '0')) == Value(s)
    decreases width - |s|
  {
    if |s| < width {
      LeadingZero(s);
      PadKeepsValue(['0'] + s, width);
    }
  }

  /** `Pad2(n)` is a digit string of at least two characters denoting `n`. */
  lemma Pad2Value(n: nat)
    ensures |Pad2(n)| >= 2 && AllDigits(Pad2(n))
    ensures Value(Pad2(n)) == n
    ensures n < 100 ==> |Pad2(n)| == 2
  {
    DecimalRoundTrip(n);
    PadKeepsValue(Decimal(n), 2);
  }

  /** Splitting `a + ":" + b` at its third-last character when `b` has two characters. */
  lemma SplitDisplay(a: string, b: string)
    requires |b| == 2
    ensures var r := a + ":" + b;
      r[..|r| - 3] == a && r[|r| - 2..] == b && r[|r| - 3] == ':'
  {
  }

  /** The digits before the colon denote the whole minutes. */
  lemma MinutesPart(x: nat)
    ensures var r := Format(x);
      && AllDigits(r[..|r| - 3]) && Value(r[..|r| - 3]) == x / 60
  {
    var a, b := Pad2(x / 60), Pad2(x % 60);
    Pad2Value(x % 60);
    Pad2Value(x / 60);
    var r := Format(x);
    assert r == a + ":" + b;
    SplitDisplay(a, b);
    assert r[..|r| - 3] == a;
  }

  /** The two digits after the colon denote the seconds, always 00 to 59. */
  lemma SecondsPart(x: nat)
    ensures var r := Format(x);
      && |r[|r| - 2..]| == 2 && AllDigits(r[|r| - 2..]) && Value(r[|r| - 2..]) == x % 60
  {
    var a, b := Pad2(x / 60), Pad2(x % 60);
    Pad2Value(x % 60);
    var r := Format(x);
    assert r == a + ":" + b;
    SplitDisplay(a, b);
    assert r[|r| - 2..] == b;
  }

  /** Parsing a display gives back the number of seconds it was made from. */
  lemma ParseFormat(x: nat)
    ensures ParseClock(Format(x)) == Some(x)
  {
    MinutesPart(x);
    SecondsPart(x);
  }

  /** Two digits that denote `v` are exactly how `Pad2` writes `v`. */
  lemma Pad2OfTwoDigits(t: string)
    requires |t| == 2 && AllDigits(t)
    ensures Value(t) < 100 && Pad2(Value(t)) == t
  {
    ValueOfTwo(t);
    var v := Value(t);
    if DigitValue(t[0]) == 0 {
      assert Decimal(v) == [t[1]];
      assert t[0] == '0' && ['0'] + [t[1]] == t;
      assert PadStart([t[1]], 2, '0') == PadStart(t, 2, '0') == t;
    } else {
      assert Decimal(v / 10) == [t[0]];
      assert Decimal(v) == [t[0], t[1]];
    }
  }

  /**
    On five-character strings the parser and the formatter are inverse:
    a string parses to `x` exactly when it is the display of `x`, and then
    `x` is below 6000 (under 100 minutes).
   */
  lemma ParseFiveChars(s: string, x: nat)
    requires |s| == 5
    ensures ParseClock(s) == Some(x) <==> x < 6000 && Format(x) == s
  {
    if ParseClock(s) == Some(x) {
      var mm, ss := s[..2], s[3..];
      assert s[|s| - 2..] == ss && s[..|s| - 3] == mm;
      Pad2OfTwoDigits(mm);
      Pad2OfTwoDigits(ss);
      assert x / 60 == Value(mm) && x % 60 == Value(ss);
      assert s == mm + ":" + ss;
    }
    if x < 6000 && Format(x) == s {
      ParseFormat(x);
    }
  }

  /** Two sample displays: 125 seconds and 0 seconds. */
  lemma FormatExamples()
    ensures Format(125) == "02:05"
    ensures Format(0) == "00:00"
  {
    assert Decimal(2) == "2" && Decimal(5) == "5" && Decimal(0) == "0";
    assert Pad2(2) == "02" && Pad2(5) == "05" && Pad2(0) == "00";
  }
}

=== FILE: notifications.dfy ===
/**
  The notification side effect: a permission-gated sink that keeps at most
  one notification on screen. Sending closes the one currently shown (if
  any) before creating the new one. The browser's notification objects are
  modelled by a log of the show/close operations performed on them.
 */
module Notifications {
  import opened Optional

  /** Wall-clock instants are opaque: they only label messages and history entries. */
  type Stamp = nat

  /** The body of a notification: the timed drink reminder or the permission greeting. */
  datatype Message = Reminder(at: Stamp) | Ready

  const Title: string := "Water reminder"

  datatype Notification = Notification(id: nat, title: string, body: Message)

  datatype SinkOp = Show(note: Notification) | Close(id: nat)

  /** Number of notifications created so far; the next one gets this id. */
  function ShownCount(log: seq<SinkOp>): nat {
    if |log| == 0 then 0
    else ShownCount(log[..|log| - 1]) + (if log[|log| - 1].Show? then 1 else 0)
  }

  /** Ids of the notifications created and not closed since. */
  function OpenIds(log: seq<SinkOp>): set<nat> {
    if |log| == 0 then {}
    else
      var before := OpenIds(log[..|log| - 1]);
      match log[|log| - 1]
      case Show(n) => before + {n.id}
      case Close(i) => before - {i}
  }

  datatype Sink = Sink(current: Option<Notification>, log: seq<SinkOp>) {

    function CurrentIds(): set<nat> {
      if current.Some? then {current.value.id} else {}
    }

    /**
      The reference held is exactly the set of notifications left open, and
      it is one that has already been created.
     */
    predicate Valid() {
      && OpenIds(log) == CurrentIds()
      && (current.Some? ==> current.value.id < ShownCount(log))
    }
  }

  const Empty: Sink := Sink(None, [])

  lemma EmptyValid()
    ensures Empty.Valid() && ShownCount(Empty.log) == 0
  {
  }

  /**
    Send one notification. Without permission nothing changes. With it, the
    previous notification is closed, a new one with a fresh id is shown, and
    it becomes the only one open.
   */
  function Send(s: Sink, granted: bool, body: Message): (r: Sink)
    ensures !granted ==> r == s
    ensures granted ==> r.current == Some(Notification(ShownCount(s.log), Title, body))
    ensures granted ==> ShownCount(r.log) == ShownCount(s.log) + 1
    ensures s.log <= r.log
    ensures s.Valid() ==> r.Valid()
    ensures granted && s.Valid() ==> OpenIds(r.log) == {ShownCount(s.log)}
    ensures granted ==> |r.log| <= |s.log| + 2 && r.log[|r.log| - 1] == Show(r.current.value)
  {
    if !granted then s
    else
      var closed := if s.current.Some? then s.log + [Close(s.current.value.id)] else s.log;
      var n := Notification(ShownCount(s.log), Title, body);
      var log := closed + [Show(n)];
      assert log[..|closed|] == closed;
      assert closed[..|s.log|] == s.log;
      assert ShownCount(closed) == ShownCount(s.log);
      Sink(Some(n), log)
  }

  /**
    The previous notification is closed before the new one is shown: at no
    point while a send is logged are two notifications open at once.
   */
  lemma SendClosesBeforeShowing(s: Sink, granted: bool, body: Message)
    requires s.Valid()
    ensures var r := Send(s, granted, body);
      forall k :: |s.log| <= k <= |r.log| ==> |OpenIds(r.log[..k])| <= 1
  {
    var r := Send(s, granted, body);
    if !granted {
      assert r.log[..|s.log|] == s.log;
    } else {
      var n := Notification(ShownCount(s.log), Title, body);
      var closed := if s.current.Some? then s.log + [Close(s.current.value.id)] else s.log;
      assert r.log == closed + [Show(n)];
      forall k | |s.log| <= k <= |r.log|
        ensures |OpenIds(r.log[..k])| <= 1
      {
        if k == |r.log| {
          assert r.log[..k] == r.log;
        } else if k == |s.log| {
          assert r.log[..k] == s.log;
        } else {
          assert r.log[..k] == closed;
          assert closed[..|s.log|] == s.log;
          assert OpenIds(closed) == {};
        }
      }
    }
  }

  /** A valid sink never has more than one notification open. */
  lemma AtMostOneOpen(s: Sink)
    requires s.Valid()
    ensures |OpenIds(s.log)| <= 1
  {
  }

  /** An attempt to notify: the permission seen at that moment and the message. */
  datatype Attempt = Attempt(granted: bool, body: Message)

  function SendAll(s: Sink, attempts: seq<Attempt>): Sink
    decreases |attempts|
  {
    if |attempts| == 0 then s
    else SendAll(Send(s, attempts[0].granted, attempts[0].body), attempts[1..])
  }

  function GrantedCount(attempts: seq<Attempt>): nat {
    if |attempts| == 0 then 0
    else (if attempts[0].granted then 1 else 0) + GrantedCount(attempts[1..])
  }

  /**
    After any series of attempts, one notification is created per granted
    attempt, earlier operations stay in the log, and at most one
    notification is open.
   */
  lemma {:induction false} SendAllKeepsOneOpen(s: Sink, attempts: seq<Attempt>)
    requires s.Valid()
    ensures var r := SendAll(s, attempts);
      && r.Valid()
      && |OpenIds(r.log)| <= 1
      && ShownCount(r.log) == ShownCount(s.log) + GrantedCount(attempts)
      && s.log <= r.log
    decreases |attempts|
  {
    if |attempts| > 0 {
      var next := Send(s, attempts[0].granted, attempts[0].body);
      SendAllKeepsOneOpen(next, attempts[1..]);
    }
  }
}

=== FILE: optional.dfy ===
/** The usual Some/None datatype, used where a value may be absent. */
module Optional {

  datatype Option<+T> = None | Some(value: T)
}

=== FILE: reminder.dfy ===
/**
  The reminder state machine of the water-reminder component, as a
  discrete-time machine. User actions force a state and append to the
  history; a `Tick` is one emission of the clock that was (re)started on the
  latest entry into the current state, and drives the countdown belonging to
  that state. Cancelling a countdown is modelled by resetting `elapsed` on
  every entry and by letting each tick consult only the current state.
 */
module Reminder {
  import opened Optional
  import opened Notifications

  datatype State = Stopped | Started | StartedOvertime

  datatype Action = Start | Drink | Stop

  datatype Entry = Entry(event: Action, time: Stamp)

  datatype Event =
    | Act(action: Action, at: Stamp)
    | Tick(granted: bool, now: Stamp)
    | PermissionAnswered(granted: bool)

  /** A value emitted by one of the two countdowns. */
  datatype Countdown = StartedLeft(left: nat) | OvertimeLeft(left: nat)

  /**
    `elapsed` counts the clock values already emitted since the last entry
    into `state`; `minutes` is the reminder frequency.
   */
  datatype Machine = Machine(
    state: State,
    elapsed: nat,
    minutes: nat,
    history: seq<Entry>,
    sink: Sink)
  {
    /** Length of the started countdown, in seconds. */
    function Seconds(): nat {
      minutes * 60
    }

    /**
      The started countdown never runs past zero, and the notification
      sink holds at most the one notification it references.
     */
    predicate Valid() {
      && (state == Started ==> elapsed <= Seconds())
      && sink.Valid()
    }
  }

  const DefaultMinutes: nat := 60

  /** A component just created: stopped, empty history, nothing shown. */
  function Init(minutes: nat): (m: Machine)
    ensures m.Valid()
    ensures m.state == Stopped && m.history == [] && m.minutes == minutes
    ensures m.sink.current == None && ShownCount(m.sink.log) == 0
  {
    EmptyValid();
    Machine(Stopped, 0, minutes, [], Empty)
  }

  function Fresh(): (m: Machine)
    ensures m.Valid() && m.state == Stopped && m.minutes == 60
  {
    Init(DefaultMinutes)
  }

  /** The state every action forces, whatever the state before. */
  function Target(a: Action): State {
    match a
    case Start => Started
    case Drink => Started
    case Stop => Stopped
  }

  /**
    What the next clock emission makes the active countdown produce: the
    started countdown yields frequency-seconds minus elapsed while that is
    not negative, the overtime countdown cycles 59 down to 0, and nothing
    is subscribed while stopped.
   */
  function TickValue(m: Machine): (c: Option<Countdown>)
    ensures c.Some? && c.value.StartedLeft? <==> m.state == Started && m.elapsed <= m.Seconds()
    ensures c.Some? && c.value.StartedLeft? ==> c.value.left + m.elapsed == m.Seconds()
    ensures c.Some? && c.value.OvertimeLeft? <==> m.state == StartedOvertime
    ensures c.Some? && c.value.OvertimeLeft? ==> c.value.left < 60
    ensures m.state == StartedOvertime ==> (c.value.left == 0 <==> m.elapsed % 60 == 59)
    ensures m.Valid() ==> (c.None? <==> m.state == Stopped)
  {
    match m.state
    case Stopped => None
    case Started =>
      if m.elapsed <= m.Seconds() then Some(StartedLeft(m.Seconds() - m.elapsed)) else None
    case StartedOvertime => Some(OvertimeLeft(59 - m.elapsed % 60))
  }

  /** True when the countdown value is a zero-crossing. */
  predicate IsZero(c: Countdown) {
    c.left == 0
  }

  /**
    One clock emission. A zero of the started countdown sends a reminder and
    switches to overtime (whose clock starts afresh); a zero of the overtime
    countdown sends a reminder and keeps counting.
   */
  function OnTick(m: Machine, granted: bool, now: Stamp): (r: Machine)
    ensures r.history == m.history && r.minutes == m.minutes
    ensures m.state == Stopped ==> r == m
    ensures m.state == StartedOvertime ==> r.state == StartedOvertime && r.elapsed == m.elapsed + 1
    ensures m.state == Started && m.elapsed < m.Seconds() ==> r == m.(elapsed := m.elapsed + 1)
    ensures m.state == Started && m.elapsed == m.Seconds() ==>
      r.state == StartedOvertime && r.elapsed == 0
    ensures (TickValue(m).Some? && IsZero(TickValue(m).value)) ==>
      r.sink == Send(m.sink, granted, Reminder(now))
    ensures !(TickValue(m).Some? && IsZero(TickValue(m).value)) ==> r.sink == m.sink
    ensures m.Valid() ==> r.Valid()
  {
    match TickValue(m)
    case None => m
    case Some(StartedLeft(left)) =>
      if left == 0 then
        m.(state := StartedOvertime, elapsed := 0, sink := Send(m.sink, granted, Reminder(now)))
      else
        m.(elapsed := m.elapsed + 1)
    case Some(OvertimeLeft(left)) =>
      m.(elapsed := m.elapsed + 1,
         sink := if left == 0 then Send(m.sink, granted, Reminder(now)) else m.sink)
  }

  /**
    One event. An action appends its history entry and enters its target
    state with a fresh clock; an answered permission request greets the
    user when permission was granted.
   */
  function Step(m: Machine, e: Event): (r: Machine)
    ensures r.minutes == m.minutes
    ensures e.Act? ==> r.state == Target(e.action) && r.elapsed == 0 && r.sink == m.sink
    ensures e.Act? ==> r.history == m.history + [Entry(e.action, e.at)]
    ensures !e.Act? ==> r.history == m.history
    ensures e.PermissionAnswered? ==>
      r.state == m.state && r.elapsed == m.elapsed && r.sink == Send(m.sink, e.granted, Ready)
    ensures e.Tick? ==> r == OnTick(m, e.granted, e.now)
    ensures m.Valid() ==> r.Valid()
  {
    match e
    case Act(a, t) => m.(state := Target(a), elapsed := 0, history := m.history + [Entry(a, t)])
    case Tick(granted, now) => OnTick(m, granted, now)
    case PermissionAnswered(granted) => m.(sink := Send(m.sink, granted, Ready))
  }

  /**
    The countdown value an event emits: at most one, only on a tick, and
    exactly the value of the countdown subscribed in the current state.
   */
  function Emitted(m: Machine, e: Event): (cs: seq<Countdown>)
    ensures |cs| <= 1
    ensures |cs| == 1 <==> e.Tick? && TickValue(m).Some?
    ensures |cs| == 1 ==> cs[0] == TickValue(m).value
    ensures m.Valid() && e.Tick? ==> (|cs| == 1 <==> m.state != Stopped)
  {
    if e.Tick? && TickValue(m).Some? then [TickValue(m).value] else []
  }

  function Run(m: Machine, es: seq<Event>): (r: Machine)
    ensures r.minutes == m.minutes
    ensures m.Valid() ==> r.Valid()
    decreases |es|
  {
    if |es| == 0 then m else Run(Step(m, es[0]), es[1..])
  }

  /** All countdown values emitted while running `es` from `m`, in order. */
  function Emissions(m: Machine, es: seq<Event>): (cs: seq<Countdown>)
    ensures |cs| <= |es|
    decreases |es|
  {
    if |es| == 0 then [] else Emitted(m, es[0]) + Emissions(Step(m, es[0]), es[1..])
  }

  /** `n` clock emissions seen with the same permission and wall-clock reading. */
  function Ticks(n: nat, granted: bool, now: Stamp): (es: seq<Event>)
    ensures |es| == n
  {
    if n == 0 then [] else [Tick(granted, now)] + Ticks(n - 1, granted, now)
  }
}

=== FILE: reminder_properties.dfy ===
/**
  Properties of runs of the reminder machine: the history log, the two
  countdowns and their zero-crossings, cancellation on leaving a state, and
  the link between zero-crossings and notifications shown.
 */
module ReminderProperties {
  import opened Optional
  import opened Notifications
  import opened Reminder
  import ClockFormat

  /** The history entries a series of events should append: one per action, in order. */
  function EntriesOf(es: seq<Event>): seq<Entry> {
    if |es| == 0 then []
    else (if es[0].Act? then [Entry(es[0].action, es[0].at)] else []) + EntriesOf(es[1..])
  }

  /** Number of zero-crossings among emitted countdown values. */
  function CountZeros(cs: seq<Countdown>): nat {
    if |cs| == 0 then 0 else (if IsZero(cs[0]) then 1 else 0) + CountZeros(cs[1..])
  }

  lemma {:induction false} CountZerosAppend(a: seq<Countdown>, b: seq<Countdown>)
    ensures CountZeros(a + b) == CountZeros(a) + CountZeros(b)
    decreases |a|
  {
    if |a| == 0 {
      assert a + b == b;
    } else {
      assert (a + b)[0] == a[0];
      assert (a + b)[1..] == a[1..] + b;
      CountZerosAppend(a[1..], b);
    }
  }

  /** Running two series of events one after the other. */
  lemma {:induction false} RunAppend(m: Machine, a: seq<Event>, b: seq<Event>)
    ensures Run(m, a + b) == Run(Run(m, a), b)
    ensures Emissions(m, a + b) == Emissions(m, a) + Emissions(Run(m, a), b)
    decreases |a|
  {
    if |a| == 0 {
      assert a + b == b;
    } else {
      assert (a + b)[0] == a[0];
      assert (a + b)[1..] == a[1..] + b;
      RunAppend(Step(m, a[0]), a[1..], b);
    }
  }

  /** The history after a run is the history before plus one entry per action, in call order. */
  lemma {:induction false} HistoryOfRun(m: Machine, es: seq<Event>)
    ensures Run(m, es).history == m.history + EntriesOf(es)
    decreases |es|
  {
    if |es| > 0 {
      HistoryOfRun(Step(m, es[0]), es[1..]);
    }
  }

  lemma {:induction false} EntriesOfActions(es: seq<Event>)
    requires forall i :: 0 <= i < |es| ==> es[i].Act?
    ensures EntriesOf(es) == seq(|es|, i requires 0 <= i < |es| => Entry(es[i].action, es[i].at))
    decreases |es|
  {
    if |es| > 0 {
      EntriesOfActions(es[1..]);
    }
  }

  /**
    After N user actions on a fresh component the history holds exactly N
    entries, the i-th recording the i-th action.
   */
  lemma HistoryAfterActions(es: seq<Event>)
    requires forall i :: 0 <= i < |es| ==> es[i].Act?
    ensures var h := Run(Fresh(), es).history;
      && |h| == |es|
      && forall i :: 0 <= i < |es| ==> h[i] == Entry(es[i].action, es[i].at)
  {
    HistoryOfRun(Fresh(), es);
    EntriesOfActions(es);
  }

  /** An action forces its target state, whatever happened before it. */
  lemma ActionForcesState(m: Machine, es: seq<Event>, a: Action, t: Stamp)
    ensures Run(m, es + [Act(a, t)]).state == Target(a)
    ensures Run(m, es + [Act(a, t)]).history == Run(m, es).history + [Entry(a, t)]
  {
    RunAppend(m, es, [Act(a, t)]);
  }

  /**
    While the started countdown runs, each emission is frequency-seconds
    minus the elapsed count, nothing is sent and the state stays `Started`.
   */
  lemma {:induction false} StartedCountdown(m: Machine, n: nat, granted: bool, now: Stamp)
    requires m.state == Started && m.elapsed + n <= m.Seconds()
    ensures Run(m, Ticks(n, granted, now)) == m.(elapsed := m.elapsed + n)
    ensures Emissions(m, Ticks(n, granted, now))
         == seq(n, i requires 0 <= i < n => StartedLeft(m.Seconds() - m.elapsed - i))
    decreases n
  {
    if n > 0 {
      var es := Ticks(n, granted, now);
      var next := m.(elapsed := m.elapsed + 1);
      TicksSplit(n, granted, now);
      StartedTick(m, granted, now);
      StartedCountdown(next, n - 1, granted, now);
      assert Run(m, es) == Run(next, Ticks(n - 1, granted, now));
      assert Emissions(m, es)
          == [StartedLeft(m.Seconds() - m.elapsed)] + Emissions(next, Ticks(n - 1, granted, now));
      StartedValuesCons(m.Seconds() - m.elapsed, n);
    }
  }

  /** Splitting a run of ticks into its first tick and the rest. */
  lemma TicksSplit(n: nat, granted: bool, now: Stamp)
    requires n > 0
    ensures Ticks(n, granted, now)[0] == Tick(granted, now)
    ensures Ticks(n, granted, now)[1..] == Ticks(n - 1, granted, now)
  {
  }

  /** A tick before the started countdown's zero emits its value and only advances the clock. */
  lemma StartedTick(m: Machine, granted: bool, now: Stamp)
    requires m.state == Started && m.elapsed < m.Seconds()
    ensures Step(m, Tick(granted, now)) == m.(elapsed := m.elapsed + 1)
    ensures Emitted(m, Tick(granted, now)) == [StartedLeft(m.Seconds() - m.elapsed)]
  {
  }

  /** The tick at the started countdown's zero sends one reminder and enters overtime afresh. */
  lemma StartedZeroTick(m: Machine, granted: bool, now: Stamp)
    requires m.state == Started && m.elapsed == m.Seconds()
    ensures Step(m, Tick(granted, now))
         == m.(state := StartedOvertime, elapsed := 0, sink := Send(m.sink, granted, Reminder(now)))
    ensures Emitted(m, Tick(granted, now)) == [StartedLeft(0)]
  {
  }

  /** `top` counted down `k` times, prefixed by one value: counting down from `top`. */
  lemma StartedValuesCons(top: nat, k: nat)
    requires 0 < k <= top + 1
    ensures [StartedLeft(top)] + seq(k - 1, i requires 0 <= i < k - 1 => StartedLeft(top - 1 - i))
         == seq(k, i requires 0 <= i < k => StartedLeft(top - i))
  {
  }

  /**
    Run to its end, the started countdown emits every value down to 0, and
    its zero sends exactly one reminder and moves to overtime with a fresh
    clock.
   */
  lemma {:induction false} StartedCountdownEnds(m: Machine, granted: bool, now: Stamp)
    requires m.state == Started && m.elapsed <= m.Seconds()
    ensures var k := m.Seconds() - m.elapsed + 1;
      && Run(m, Ticks(k, granted, now))
         == m.(state := StartedOvertime, elapsed := 0, sink := Send(m.sink, granted, Reminder(now)))
      && Emissions(m, Ticks(k, granted, now))
         == seq(k, i requires 0 <= i < k => StartedLeft(m.Seconds() - m.elapsed - i))
    decreases m.Seconds() - m.elapsed
  {
    var k := m.Seconds() - m.elapsed + 1;
    var es := Ticks(k, granted, now);
    TicksSplit(k, granted, now);
    if m.elapsed == m.Seconds() {
      StartedZeroTick(m, granted, now);
      assert es[1..] == [];
      assert Run(m, es) == Step(m, Tick(granted, now));
      assert Emissions(m, es) == [StartedLeft(0)];
    } else {
      var next := m.(elapsed := m.elapsed + 1);
      StartedTick(m, granted, now);
      StartedCountdownEnds(next, granted, now);
      assert Run(m, es) == Run(next, Ticks(k - 1, granted, now));
      assert Emissions(m, es)
          == [StartedLeft(m.Seconds() - m.elapsed)] + Emissions(next, Ticks(k - 1, granted, now));
      StartedValuesCons(m.Seconds() - m.elapsed, k);
    }
  }

  /**
    Entering `Started` by `start()` or `drink()`, from any state, restarts
    the countdown at frequency-seconds: the next F+1 emissions are F, F-1,
    ..., 0, exactly one reminder is sent, and the machine is then in
    overtime whose first emission is 59.
   */
  lemma EnterStarted(m: Machine, a: Action, t: Stamp, granted: bool, now: Stamp)
    requires a != Stop
    ensures var F := m.Seconds();
      var es := [Act(a, t)] + Ticks(F + 1, granted, now);
      var r := Run(m, es);
      && Emissions(m, es) == seq(F + 1, i requires 0 <= i < F + 1 => StartedLeft(F - i))
      && r.state == StartedOvertime
      && r.sink == Send(m.sink, granted, Reminder(now))
      && TickValue(r) == Some(OvertimeLeft(59))
  {
    var F := m.Seconds();
    var ticks := Ticks(F + 1, granted, now);
    var entered := m.(state := Started, elapsed := 0, history := m.history + [Entry(a, t)]);
    assert Step(m, Act(a, t)) == entered;
    RunAppend(m, [Act(a, t)], ticks);
    assert Run(m, [Act(a, t)]) == entered;
    assert Emissions(m, [Act(a, t)]) == [];
    StartedCountdownEnds(entered, granted, now);
    var r := entered.(state := StartedOvertime, elapsed := 0, sink := Send(m.sink, granted, Reminder(now)));
    assert Run(m, [Act(a, t)] + ticks) == r;
    assert TickValue(r) == Some(OvertimeLeft(59));
  }

  /** The overtime countdown's values for `n` emissions starting at elapsed `e`. */
  function OvertimeValues(e: nat, n: nat): (cs: seq<Countdown>)
    ensures |cs| == n
  {
    seq(n, i requires 0 <= i < n => OvertimeLeft(59 - (e + i) % 60))
  }

  /** In overtime a tick keeps the state and the history and advances the clock by one. */
  lemma OvertimeTick(m: Machine, granted: bool, now: Stamp)
    requires m.state == StartedOvertime
    ensures var next := Step(m, Tick(granted, now));
      && next.state == StartedOvertime
      && next.elapsed == m.elapsed + 1
      && next.history == m.history
      && Emitted(m, Tick(granted, now)) == [OvertimeLeft(59 - m.elapsed % 60)]
  {
  }

  /**
    In overtime every emission is 59 minus the elapsed count modulo 60 and
    the state never changes on a tick.
   */
  lemma {:induction false} OvertimeTicks(m: Machine, n: nat, granted: bool, now: Stamp)
    requires m.state == StartedOvertime
    ensures var r := Run(m, Ticks(n, granted, now));
      && r.state == StartedOvertime
      && r.elapsed == m.elapsed + n
      && r.history == m.history
    ensures Emissions(m, Ticks(n, granted, now)) == OvertimeValues(m.elapsed, n)
    decreases n
  {
    if n > 0 {
      var es := Ticks(n, granted, now);
      TicksSplit(n, granted, now);
      var next := Step(m, Tick(granted, now));
      OvertimeTick(m, granted, now);
      OvertimeTicks(next, n - 1, granted, now);
      assert Run(m, es) == Run(next, Ticks(n - 1, granted, now));
      assert Emissions(m, es)
          == [OvertimeLeft(59 - m.elapsed % 60)] + Emissions(next, Ticks(n - 1, granted, now));
      assert [OvertimeLeft(59 - m.elapsed % 60)] + OvertimeValues(m.elapsed + 1, n - 1)
          == OvertimeValues(m.elapsed, n);
    }
  }

  /** The overtime countdown crosses zero once per completed minute of elapsed time. */
  lemma {:induction false} OvertimeZeros(e: nat, n: nat)
    ensures CountZeros(OvertimeValues(e, n)) == (e + n) / 60 - e / 60
    decreases n
  {
    if n > 0 {
      var cs := OvertimeValues(e, n);
      assert cs[1..] == OvertimeValues(e + 1, n - 1);
      OvertimeZeros(e + 1, n - 1);
      NextMinute(e);
    }
  }

  /**
    In overtime the zero-crossings, one per full 60-tick cycle, each send
    one reminder when permitted, and nothing is sent otherwise.
   */
  lemma OvertimeCycle(m: Machine, n: nat, granted: bool, now: Stamp)
    requires m.state == StartedOvertime
    ensures var r := Run(m, Ticks(n, granted, now));
      && (granted ==> ShownCount(r.sink.log) == ShownCount(m.sink.log) + (m.elapsed + n) / 60 - m.elapsed / 60)
      && (!granted ==> r.sink == m.sink)
  {
    var es := Ticks(n, granted, now);
    OvertimeTicks(m, n, granted, now);
    OvertimeZeros(m.elapsed, n);
    TicksAreTicks(n, granted, now);
    if granted {
      NotificationsMatchZeros(m, es);
    } else {
      DeniedSendsNothing(m, es);
    }
  }

  lemma {:induction false} TicksAreTicks(n: nat, granted: bool, now: Stamp)
    ensures forall i :: 0 <= i < n ==> Ticks(n, granted, now)[i] == Tick(granted, now)
    decreases n
  {
    if n > 0 {
      TicksAreTicks(n - 1, granted, now);
      assert Ticks(n, granted, now)[1..] == Ticks(n - 1, granted, now);
    }
  }

  /** One more second completes a minute exactly when the seconds were at 59. */
  lemma NextMinute(e: nat)
    ensures (e + 1) / 60 == e / 60 + (if e % 60 == 59 then 1 else 0)
  {
  }

  /**
    Two full overtime cycles from the start of overtime: exactly two
    zero-crossings, at elapsed 59 and 119, and two reminders when permitted.
   */
  lemma OvertimeTwoCycles(m: Machine, granted: bool, now: Stamp)
    requires m.state == StartedOvertime && m.elapsed == 0
    ensures var cs := Emissions(m, Ticks(120, granted, now));
      && |cs| == 120 && IsZero(cs[59]) && IsZero(cs[119])
      && (forall i :: 0 <= i < 120 && i != 59 && i != 119 ==> !IsZero(cs[i]))
      && CountZeros(cs) == 2
    ensures granted ==> ShownCount(Run(m, Ticks(120, granted, now)).sink.log) == ShownCount(m.sink.log) + 2
  {
    OvertimeTicks(m, 120, granted, now);
    OvertimeZeros(0, 120);
    OvertimeCycle(m, 120, granted, now);
  }

  /** While stopped no countdown is subscribed: ticks change nothing and emit nothing. */
  lemma {:induction false} StoppedTicks(m: Machine, n: nat, granted: bool, now: Stamp)
    requires m.state == Stopped
    ensures Run(m, Ticks(n, granted, now)) == m
    ensures Emissions(m, Ticks(n, granted, now)) == []
    decreases n
  {
    if n > 0 {
      var es := Ticks(n, granted, now);
      assert es[1..] == Ticks(n - 1, granted, now);
      StoppedTicks(m, n - 1, granted, now);
    }
  }

  /** Events that cannot restart a countdown or greet the user. */
  predicate Quiet(e: Event) {
    match e
    case Act(a, _) => a == Stop
    case Tick(_, _) => true
    case PermissionAnswered(granted) => !granted
  }

  /**
    Once stopped, events that neither restart the countdown nor grant
    permission leave the machine stopped, silent and with the sink untouched.
   */
  lemma {:induction false} StoppedStaysSilent(m: Machine, es: seq<Event>)
    requires m.state == Stopped
    requires forall i :: 0 <= i < |es| ==> Quiet(es[i])
    ensures Run(m, es).state == Stopped
    ensures Run(m, es).sink == m.sink
    ensures Emissions(m, es) == []
    decreases |es|
  {
    if |es| > 0 {
      assert Quiet(es[0]);
      StoppedStaysSilent(Step(m, es[0]), es[1..]);
    }
  }

  /** Events other than `start()` and `drink()`, the two that restart the countdown. */
  predicate NoRestart(e: Event) {
    !(e.Act? && e.action != Stop)
  }

  /** The greeting attempts made by the permission answers among `es`, in order. */
  function Greetings(es: seq<Event>): seq<Attempt> {
    if |es| == 0 then []
    else
      (if es[0].PermissionAnswered? then [Attempt(es[0].granted, Ready)] else [])
      + Greetings(es[1..])
  }

  lemma SendAllCons(s: Sink, a: Attempt, rest: seq<Attempt>)
    ensures SendAll(s, [a] + rest) == SendAll(Send(s, a.granted, a.body), rest)
  {
    assert ([a] + rest)[1..] == rest;
  }

  /**
    Once stopped, and until `start()` or `drink()`, no countdown value is
    emitted and the machine stays stopped; the only notifications sent are
    the greetings of answered permission requests.
   */
  lemma {:induction false} StoppedUntilRestart(m: Machine, es: seq<Event>)
    requires m.state == Stopped
    requires forall i :: 0 <= i < |es| ==> NoRestart(es[i])
    ensures Run(m, es).state == Stopped
    ensures Emissions(m, es) == []
    ensures Run(m, es).sink == SendAll(m.sink, Greetings(es))
    decreases |es|
  {
    if |es| > 0 {
      assert NoRestart(es[0]);
      var next := Step(m, es[0]);
      StoppedUntilRestart(next, es[1..]);
      if es[0].PermissionAnswered? {
        SendAllCons(m.sink, Attempt(es[0].granted, Ready), Greetings(es[1..]));
      } else {
        assert Greetings(es) == Greetings(es[1..]);
      }
    }
  }

  /**
    `stop()` cancels whichever countdown was running, from any state: until
    `start()` or `drink()` no countdown value is emitted, and the only
    notifications are greetings of answered permission requests; without a
    granted answer the sink is untouched.
   */
  lemma StopCancels(m: Machine, t: Stamp, es: seq<Event>)
    requires forall i :: 0 <= i < |es| ==> NoRestart(es[i])
    ensures Emissions(m, [Act(Stop, t)] + es) == []
    ensures Run(m, [Act(Stop, t)] + es).state == Stopped
    ensures Run(m, [Act(Stop, t)] + es).sink == SendAll(m.sink, Greetings(es))
    ensures (forall i :: 0 <= i < |es| ==> Quiet(es[i])) ==> Run(m, [Act(Stop, t)] + es).sink == m.sink
  {
    RunAppend(m, [Act(Stop, t)], es);
    StoppedUntilRestart(Step(m, Act(Stop, t)), es);
    if forall i :: 0 <= i < |es| ==> Quiet(es[i]) {
      StoppedStaysSilent(Step(m, Act(Stop, t)), es);
    }
  }

  /** Every tick sees permission granted, and no permission request is answered. */
  predicate AlwaysGranted(e: Event) {
    match e
    case Act(_, _) => true
    case Tick(granted, _) => granted
    case PermissionAnswered(_) => false
  }

  /**
    With permission granted, the notifications created during a run are
    exactly the zero-crossings it emits: one reminder per zero, no others.
   */
  lemma {:induction false} NotificationsMatchZeros(m: Machine, es: seq<Event>)
    requires forall i :: 0 <= i < |es| ==> AlwaysGranted(es[i])
    ensures ShownCount(Run(m, es).sink.log) == ShownCount(m.sink.log) + CountZeros(Emissions(m, es))
    decreases |es|
  {
    if |es| > 0 {
      var next := Step(m, es[0]);
      assert AlwaysGranted(es[0]);
      NotificationsMatchZeros(next, es[1..]);
      CountZerosAppend(Emitted(m, es[0]), Emissions(next, es[1..]));
    }
  }

  /** Without permission at any point, a run creates no notification at all. */
  lemma {:induction false} DeniedSendsNothing(m: Machine, es: seq<Event>)
    requires forall i :: 0 <= i < |es| ==> !(es[i].Tick? || es[i].PermissionAnswered?) || !es[i].granted
    ensures Run(m, es).sink == m.sink
    decreases |es|
  {
    if |es| > 0 {
      DeniedSendsNothing(Step(m, es[0]), es[1..]);
    }
  }

  /**
    Every countdown value emitted from a consistent machine is in range:
    the started countdown within 0..frequency-seconds, overtime within 0..59.
   */
  lemma {:induction false} EmissionsInRange(m: Machine, es: seq<Event>)
    requires m.Valid()
    ensures forall c :: c in Emissions(m, es) ==>
      (c.StartedLeft? ==> c.left <= m.Seconds()) && (c.OvertimeLeft? ==> c.left <= 59)
    decreases |es|
  {
    if |es| > 0 {
      EmissionsInRange(Step(m, es[0]), es[1..]);
    }
  }

  /**
    Whatever the frequency and whatever the user and the clock do, a fresh
    component stays consistent:
    at most one notification is open, and while `Started` the countdown has
    not run past zero, so the non-negativity cut-off never ends it early.
   */
  lemma Reachable(minutes: nat, es: seq<Event>)
    ensures var r := Run(Init(minutes), es);
      && r.Valid()
      && |OpenIds(r.sink.log)| <= 1
      && (r.state == Started ==> TickValue(r).Some? && TickValue(r).value.StartedLeft?)
  {
    var r := Run(Init(minutes), es);
    AtMostOneOpen(r.sink);
  }

  /**
    With a frequency under 100 minutes every started countdown value is
    displayed as five characters `MM:SS` that read back as that value.
   */
  lemma StartedDisplay(m: Machine)
    requires m.minutes < 100
    requires TickValue(m).Some? && TickValue(m).value.StartedLeft?
    ensures var v := TickValue(m).value.left;
      && |ClockFormat.Format(v)| == 5
      && ClockFormat.ParseClock(ClockFormat.Format(v)) == Some(v)
  {
    ClockFormat.ParseFormat(TickValue(m).value.left);
  }
}
